=== FILE: README.md ===
# Swordfish job runner: log mining, node execution and the SQL job registry

A Dafny model of three pieces of decision logic around swordfish's cluster job
runner, separated from their I/O:

- **AbstractYarnJob** (`exec-server/.../job/AbstractYarnJob.java`). Each log line is
  searched for the first `application_<digits>_<digits>` and the first
  `job_<digits>_<digits>`. New ids are appended to `appLinks` / `jobLinks`, which stay
  duplicate-free and in first-seen order. The DAO record is written back only when
  something new was captured. `isCompleted` polls YARN about the most recent
  application id. `cancel` / `cancelApplication` build the kill script path, the
  script text and the command that runs it.
- **NodeRunner** (`exec-server/.../runner/node/NodeRunner.java`). `call()` merges the
  system and custom parameters, derives the `jobAppId` tag and builds the JobProps.
  It runs `newJob → before → process → after` inside `try`. If a step throws an
  `Exception`, it calls `kill()`. A `java.lang.Error` skips that handler and propagates
  out of `call()`. Either way, the semaphore permit is released in `finally`. `kill()`
  cancels the job only if the job exists and has started. It logs and swallows an
  `Exception` from `cancel()`; an `Error` from it propagates.
- **RunnerManager** (`spark-sql-server/.../service/RunnerManager.java`). `jobInfo`
  maps a job id to the SQL executor built for it and the future of its submission.
  Submissions always succeed and overwrite the entry. Result lookup returns `null`
  only for an unknown id; a finished job still returns its result. Cancellation
  returns `false` for an unknown id or a done future.

The outside world becomes explicit inputs:

- The YARN REST client is a function from application id to reply: a status, null,
  or an exception.
- The DAO is a `Store` holding the two records the job may update.
- The file system is a map from path to content.
- Shell commands are only the command text.
- The job's phases are given by how each one returns: normally, by throwing an
  `Exception`, or by raising an `Error`.
- The semaphore is a permit count.
- The SQL executor's future is reduced to a `done` flag and its executor to a
  `cancelled` flag plus its current result.

Files: `base.dfy` (Option, Outcome, NoDup, Count), `id_matching.dfy` (the two
patterns), `handle_links.dfy` (dedup-append and the scan loop), `job_props.dfy`,
`kill_script.dfy`, `yarn_job.dfy`, `node_runner.dfy`, `runner_manager.dfy`.

Behaviour of the code worth noting:

- `executeAdhocSql` passes `queryLimit` straight through. `defaultQueryLimit` (1000)
  is declared but never read, so no submission falls back to it.
- Submission never refuses a job id that already has a live entry. It returns true
  and overwrites the entry.
- `after()` runs only when `before()` and `process()` both returned normally.
- `logProcess` stores `appLinks` in the job-link field of the record, not
  `jobLinks`. `YarnJob.PersistWritesFullLists` states this behaviour as written.

## Model

| member | source | states |
|---|---|---|
| IdMatching.SearchFrom | exec-server/src/main/java/com/baifendian/swordfish/execserver/job/AbstractYarnJob.java:253-258 | scanning from a position, the span found is a match of `prefix\d+_\d+`; no match starts earlier, and none at that start is longer; "none found" means no match starts anywhere from there on |
| IdMatching.Search | exec-server/src/main/java/com/baifendian/swordfish/execserver/job/AbstractYarnJob.java:41-44 | `Matcher.find()` on a whole line: the leftmost match, and at that position the longest one (what greedy `\d+` yields); none exactly when the pattern occurs nowhere |
| IdMatching.MatchLengthAtCorrect | exec-server/src/main/java/com/baifendian/swordfish/execserver/job/AbstractYarnJob.java:41-44 | the greedy digit-run computation finds a match at a position exactly when the regular language has one there, and then the longest |
| IdMatching.MatchLengthAtComplete | exec-server/src/main/java/com/baifendian/swordfish/execserver/job/AbstractYarnJob.java:41-44 | every word of `prefix\d+_\d+` at a position is found by the greedy computation and is no longer than its result |
| IdMatching.DigitRun | exec-server/src/main/java/com/baifendian/swordfish/execserver/job/AbstractYarnJob.java:41-44 | the digit run read by `\d+` is all ASCII digits and maximal: it ends at the line's end or at a non-digit |
| IdMatching.FindIdSpec | exec-server/src/main/java/com/baifendian/swordfish/execserver/job/AbstractYarnJob.java:253-273 | `findAppId` / `findJobId` return null exactly when the pattern occurs nowhere in the line, and otherwise the text of the leftmost-longest match |
| IdMatching.FirstMatchUnique | exec-server/src/main/java/com/baifendian/swordfish/execserver/job/AbstractYarnJob.java:256-257 | the leftmost-longest match is unique, so each line yields at most one id per pattern, whatever else it contains |
| IdMatching.FoundIdInLanguage | exec-server/src/main/java/com/baifendian/swordfish/execserver/job/AbstractYarnJob.java:253-273 | a returned id is a word `prefix digits _ digits` |
| IdMatching.FoundIdHasUnderscore | exec-server/src/main/java/com/baifendian/swordfish/execserver/job/AbstractYarnJob.java:41-44 | a line without an underscore yields no id for either pattern |
| IdMatching.DemoLineHasNoIds | exec-server/src/main/java/com/baifendian/swordfish/execserver/job/AbstractYarnJob.java:299-313 | the demo line mentioning `application[147]` yields neither an application id nor a job id |
| HandleLinks.FoundIdsSpec | exec-server/src/main/java/com/baifendian/swordfish/execserver/job/AbstractYarnJob.java:89-104 | the ids a batch yields are exactly the non-empty per-line `find()` results; each line contributes at most one per pattern |
| HandleLinks.FoundIds | exec-server/src/main/java/com/baifendian/swordfish/execserver/job/AbstractYarnJob.java:89-104 | a batch yields no more ids per pattern than it has lines |
| HandleLinks.AddNew | exec-server/src/main/java/com/baifendian/swordfish/execserver/job/AbstractYarnJob.java:93-96 | appending new ids keeps the old list as a prefix and adds at most one entry per id in the batch |
| HandleLinks.AddNewSpec | exec-server/src/main/java/com/baifendian/swordfish/execserver/job/AbstractYarnJob.java:89-105 | after a batch, the list holds exactly the old ids plus the batch's ids; the new suffix holds nothing old; no id is duplicated; the suffix is in order of first appearance in the batch |
| HandleLinks.FirstIndex | exec-server/src/main/java/com/baifendian/swordfish/execserver/job/AbstractYarnJob.java:93-96 | the first position of an id in a sequence, or its length when absent; it expresses that new ids are appended in order of their first appearance in the batch (the `contains` test itself is modelled with `in`) |
| HandleLinks.AddNewGrowsIffFresh | exec-server/src/main/java/com/baifendian/swordfish/execserver/job/AbstractYarnJob.java:93-104 | the capture flag is raised exactly when the batch holds an id not seen before |
| HandleLinks.AddNewOnce | exec-server/src/main/java/com/baifendian/swordfish/execserver/job/AbstractYarnJob.java:93-96 | every id seen occurs in the list exactly once, however often it was logged |
| HandleLinks.AddNewBatches | exec-server/src/main/java/com/baifendian/swordfish/execserver/job/AbstractYarnJob.java:82-105 | feeding two batches one after the other gives the list that feeding their concatenation gives |
| HandleLinks.FoundIdsAppend | exec-server/src/main/java/com/baifendian/swordfish/execserver/job/AbstractYarnJob.java:89-105 | the ids of two consecutive batches of lines are those of the first followed by those of the second |
| HandleLinks.ScanLog | exec-server/src/main/java/com/baifendian/swordfish/execserver/job/AbstractYarnJob.java:85-105 | the scan loop appends each line's application id and job id when new, and each capture flag is true exactly when its list grew |
| KillScript.KillScriptPathInjective | exec-server/src/main/java/com/baifendian/swordfish/execserver/job/AbstractYarnJob.java:209-210 | for one work directory and job tag, different application ids never share a kill script path |
| KillScript.KillScriptRoundTrip | exec-server/src/main/java/com/baifendian/swordfish/execserver/job/AbstractYarnJob.java:211-223 | the script text reads back to the application it kills, and it sources the environment file exactly when one is configured (the reader locates the one-line `source` entry with the helper `IndexOf`) |
| KillScript.RunCommandRoundTrip | exec-server/src/main/java/com/baifendian/swordfish/execserver/job/AbstractYarnJob.java:232-235 | the run command reads back to `sh <file>`; it runs through `sudo -u <user>` exactly when the proxy user is non-null and non-empty |
| KillScript.CancelApplication | exec-server/src/main/java/com/baifendian/swordfish/execserver/job/AbstractYarnJob.java:204-246 | nothing happens with no application id; otherwise only the last id is targeted; the script is written only if its file is absent; a failed write throws before any command is issued; otherwise `sh <path>` (with the optional sudo prefix) is issued |
| KillScript.CancelApplicationIdempotent | exec-server/src/main/java/com/baifendian/swordfish/execserver/job/AbstractYarnJob.java:225-229 | cancelling again after a successful cancel rewrites no file and issues the same command |
| KillScript.CancelApplicationFramesFiles | exec-server/src/main/java/com/baifendian/swordfish/execserver/job/AbstractYarnJob.java:225-229 | no existing file is ever changed, and the only file that can appear is the last application's kill script |
| KillScript.CancelApplicationOnlyLast | exec-server/src/main/java/com/baifendian/swordfish/execserver/job/AbstractYarnJob.java:206-208 | two histories ending in the same application id lead to the same files and the same command |
| YarnJob.Persist | exec-server/src/main/java/com/baifendian/swordfish/execserver/job/AbstractYarnJob.java:107-140 | the DAO is written only if something new was captured and the record chosen by `isLongJob` exists; the other record is never touched |
| YarnJob.PersistWritesFullLists | exec-server/src/main/java/com/baifendian/swordfish/execserver/job/AbstractYarnJob.java:115-121 | each field that gained something receives the full application list (also the job-link field, as written); the other field keeps its value |
| YarnJob.PersistIdempotent | exec-server/src/main/java/com/baifendian/swordfish/execserver/job/AbstractYarnJob.java:108-139 | writing the same lists twice leaves the store as one write did |
| YarnJob.LogProcess | exec-server/src/main/java/com/baifendian/swordfish/execserver/job/AbstractYarnJob.java:82-149 | one batch: the link lists stay duplicate-free and grow as the scan says; the store is updated as `Persist` says; a job not yet cancelled touches no file and attempts no kill; an already-cancelled job runs the kill of its last application on every batch, so once the script exists each batch issues `sh <kill file>` again (with the optional sudo prefix) and changes no file |
| YarnJob.Cancel | exec-server/src/main/java/com/baifendian/swordfish/execserver/job/AbstractYarnJob.java:188-196 | `cancel(b)` always sets the cancel flag and changes nothing else in the job; the kill runs only when `b` holds and then targets the last application id |
| YarnJob.IsCompleted | exec-server/src/main/java/com/baifendian/swordfish/execserver/job/AbstractYarnJob.java:155-180 | with no application id the flag is unchanged and YARN is not asked; otherwise only the last id is queried: null means not complete, finished-type or RUNNING means complete, an exception means complete, any other status keeps the flag |
| YarnJob.IsCompletedOnlyLast | exec-server/src/main/java/com/baifendian/swordfish/execserver/job/AbstractYarnJob.java:156-160 | two YARN clients that agree on the last application give the same verdict, whatever they say about earlier ids |
| YarnJob.IsCompletedIdempotent | exec-server/src/main/java/com/baifendian/swordfish/execserver/job/AbstractYarnJob.java:155-180 | polling again with the same answer keeps the verdict |
| YarnJob.IsCompletedScenarios | exec-server/src/main/java/com/baifendian/swordfish/execserver/job/AbstractYarnJob.java:162-172 | with ids [a1, a2, a3], FINISHED or RUNNING for a3 gives complete, and no status for a3 gives not complete |
| NodeRunner.MergeParams | exec-server/src/main/java/com/baifendian/swordfish/execserver/runner/node/NodeRunner.java:95-103 | the merged map's keys are those of the two maps; custom values win on a collision; system values survive elsewhere; a null map contributes nothing |
| NodeRunner.MergeParamsCustomWins | exec-server/src/main/java/com/baifendian/swordfish/execserver/runner/node/NodeRunner.java:97-103 | with no system map the merge is the custom map; with no custom map it is the system map |
| NodeRunner.JobAppIdRoundTrip | exec-server/src/main/java/com/baifendian/swordfish/execserver/runner/node/NodeRunner.java:120 | the tag splits back into the node's job id, an underscore, and the first eight characters of the md5 digest |
| NodeRunner.JobAppIdInjective | exec-server/src/main/java/com/baifendian/swordfish/execserver/runner/node/NodeRunner.java:120 | two nodes share a tag only if their job ids match and their digests agree on the first eight characters |
| NodeRunner.Kill | exec-server/src/main/java/com/baifendian/swordfish/execserver/runner/node/NodeRunner.java:157-165 | `job.cancel()` is called exactly when the job exists and has started; an `Exception` from it is logged and swallowed; an `Error` from it propagates out of `kill()` |
| NodeRunner.TryBlockSpec | exec-server/src/main/java/com/baifendian/swordfish/execserver/runner/node/NodeRunner.java:126-137 | the try block runs the lifecycle steps in order and stops at the first that does not return normally; it ends with an `Exception` or an `Error` exactly when a step it reached did; the job object exists exactly when `newJob` returned |
| NodeRunner.CallEventsSpec | exec-server/src/main/java/com/baifendian/swordfish/execserver/runner/node/NodeRunner.java:139-149 | after the steps attempted come exactly one cancel when `kill()` issued one and none otherwise, then exactly one release, which is the last thing done; nothing else is added |
| NodeRunner.Call | exec-server/src/main/java/com/baifendian/swordfish/execserver/runner/node/NodeRunner.java:88-152 | on every path, an `Error` included, the permit is released exactly once, as the last step, and the count rises by one; it returns true exactly when all four steps returned normally and the exit code is 0; it returns nothing exactly when a step raised an `Error` or the cancel in `kill()` did; the job is cancelled exactly when a step threw an `Exception` after the job was created and it had started; the props carry the merged parameters and the tag |
| NodeRunner.CallStepRunsIffEarlierNormal | exec-server/src/main/java/com/baifendian/swordfish/execserver/runner/node/NodeRunner.java:127-136 | a step runs exactly when all earlier steps returned normally, so `after` is skipped when `before` or `process` throws |
| NodeRunner.CallRunsStepsInOrder | exec-server/src/main/java/com/baifendian/swordfish/execserver/runner/node/NodeRunner.java:126-149 | what a call does is exactly the first steps of `newJob, before, process, after` in that order, then at most one cancel, then the release |
| NodeRunner.CallErrorSkipsKill | exec-server/src/main/java/com/baifendian/swordfish/execserver/runner/node/NodeRunner.java:139-146 | an `Error` from a lifecycle step skips `kill()`: no cancel, no return value, and the permit is still released |
| NodeRunner.GateNeverLeaks | exec-server/src/main/java/com/baifendian/swordfish/execserver/runner/node/NodeRunner.java:126-146 | for runners whose call reaches the `try` at line 126, however they start and finish, including runners whose jobs throw an exception or raise an error: free plus held permits always equal the capacity; at most `capacity` runners are in flight; when none is in flight, all permits are free |
| RunnerManager.CreateUdf | spark-sql-server/src/main/java/com/baifendian/swordfish/server/sparksql/service/RunnerManager.java:39-43 | no UDF command is built, whatever the input |
| RunnerManager.ExecuteEtlSql | spark-sql-server/src/main/java/com/baifendian/swordfish/server/sparksql/service/RunnerManager.java:45-50 | returns true; registers a fresh, uncancelled, not-done executor with no row limit under the id, replacing any previous entry; every other entry is unchanged |
| RunnerManager.ExecuteAdhocSql | spark-sql-server/src/main/java/com/baifendian/swordfish/server/sparksql/service/RunnerManager.java:52-58 | returns true; registers a fresh executor limited to exactly `queryLimit` rows under the id, replacing any previous entry; every other entry is unchanged |
| RunnerManager.GetAdHocResult | spark-sql-server/src/main/java/com/baifendian/swordfish/server/sparksql/service/RunnerManager.java:85-93 | null for an unknown id, otherwise the registered executor's current result |
| RunnerManager.CancelExecFlow | spark-sql-server/src/main/java/com/baifendian/swordfish/server/sparksql/service/RunnerManager.java:95-104 | false and no change for an unknown id or a done future; otherwise true, with only that executor marked cancelled |
| RunnerManager.KeysOnlyGrow | spark-sql-server/src/main/java/com/baifendian/swordfish/server/sparksql/service/RunnerManager.java:28-58 | across any sequence of submissions, lookups, cancellations and executor progress, no job id is ever removed from the registry |
| RunnerManager.DoneIsFinal | spark-sql-server/src/main/java/com/baifendian/swordfish/server/sparksql/service/RunnerManager.java:95-100 | a job whose future is done keeps answering "nothing to cancel" until it is resubmitted |
| RunnerManager.SubmitThenCancel | spark-sql-server/src/main/java/com/baifendian/swordfish/server/sparksql/service/RunnerManager.java:52-104 | a just-submitted ad-hoc job has no result yet and can be cancelled |
| RunnerManager.ResubmitReplaces | spark-sql-server/src/main/java/com/baifendian/swordfish/server/sparksql/service/RunnerManager.java:45-50 | resubmitting under an id replaces its entry; a cancel issued earlier does not carry over, and the old executor is no longer reachable |

## Left out

- The YARN REST client, the DAOs, `FileUtils`, `Runtime.exec`, `HttpUtil.getMd5` and the `BaseConfig` path helpers are outside code. They appear only as inputs: a reply function, a `Store`, a map of files, the command text, a digest string and two path strings.
- Job.java, JobManager and SparkSqlExec are not part of this model. `isStarted()`, `getExitCode()`, how `cancel()` returns and how `newJob` returns are inputs of a call. SparkSqlExec's run is reduced to the `Progress` step, which sets its current result and can mark its future done.
- FlowStatus is not part of this model. Its values are grouped as `isCompleted` reads them: RUNNING, a status whose `typeIsFinished()` holds, and any other status.
- Concurrency is left out: the synchronized lists, the ConcurrentHashMap, the single-thread executor and blocking in `Semaphore.acquire`. Every operation is one sequential step, and a `Start` with no free permit simply does not happen.
- Logging and the JobLogger wrapper are left out. So are the `main` demo methods, apart from the demo line used by `IdMatching.DemoLineHasNoIds`.
- `submitAdHoc` is left out: its body is commented out and does nothing.
- ScheduleMapper (a SQL mapping interface) and MasterConfig (static configuration) are left out. AdHocJsonObject's shape is reused as `AdHocResult`.
- NodeRunner.Call: requires the md5 digest to have at least eight characters (an md5 hex digest has 32). Lines 90-122 run before the `try`, so a failure there, such as `substring(0, 8)` on a shorter string, would skip the `finally` and its release. The model does not cover that path.
- NodeRunner.GateNeverLeaks: covers only runners whose call reaches the `try` at line 126. A failure in lines 90-122, such as `substring(0, 8)` on a null or short md5 digest at line 120, skips the `finally` at lines 145-146. That runner ends with its permit still held, and the pool shrinks by one for good.
- YarnJob.LogProcess: does not model exceptions from the DAO. They would propagate out of `logProcess`; only the kill at its end is guarded.
- IdMatching.IsDigit: `\d` is ASCII `0-9` only, as in Java without the UNICODE_CHARACTER_CLASS flag.
- RunnerManager.SubmitThenCancel: its "no result yet" half assumes that a newly built executor reports a null ad-hoc result until its batch runs. `NewEntry` encodes this. SparkSqlExec is not part of this model, so its initial `getAdHocResult()` value cannot be confirmed; it might be an empty result object instead.
- RunnerManager.ExecuteEtlSql: job ids are non-null strings in the model. A null id makes `jobInfo.put` (a ConcurrentHashMap, line 48) throw NullPointerException after the batch was already submitted at line 47, so the call does not return true and an unregistered batch still runs.
- RunnerManager.ExecuteAdhocSql: the same null-id case at lines 54-55: the batch is submitted, then `put` throws, so neither "returns true" nor the registration holds.
- RunnerManager.GetAdHocResult: a null id makes `jobInfo.get` throw NullPointerException at line 86 instead of returning null; the model has no null id.
- RunnerManager.CancelExecFlow: a null id makes `jobInfo.get` throw NullPointerException at line 96 instead of returning false; the model has no null id.

=== FILE: base.dfy ===
/** Small shared vocabulary: optional values (Java's nullable references) and
    the outcome of a call that may throw. */
module Base {

  /** A nullable reference: `None` stands for Java's `null`. */
  datatype Option<+T> = None | Some(value: T) {
    function GetOr(default: T): T {
      match this
      case Some(v) => v
      case None => default
    }
  }

  /** How a call into code outside the model returned: normally, by throwing
      a `java.lang.Exception` (which `catch (Exception e)` handles), or by
      raising a `java.lang.Error` (which such a handler lets through). */
  datatype Outcome = Normal | Threw | Errored

  /** `StringUtils.isNotEmpty`: not null and not the empty string. */
  predicate IsNotEmpty(s: Option<string>) {
    s.Some? && |s.value| > 0
  }

  /** The sequence has no element twice. */
  predicate NoDup<T(==)>(s: seq<T>) {
    forall i, j :: 0 <= i < j < |s| ==> s[i] != s[j]
  }

  /** Number of occurrences of `x` in `s`. */
  function Count<T(==)>(s: seq<T>, x: T): (n: nat)
    ensures n <= |s|
    ensures n == 0 <==> x !in s
  {
    if |s| == 0 then 0
    else Count(s[..|s| - 1], x) + (if s[|s| - 1] == x then 1 else 0)
  }

  lemma CountAppend<T>(s: seq<T>, t: seq<T>, x: T)
    ensures Count(s + t, x) == Count(s, x) + Count(t, x)
    decreases |t|
  {
    if |t| == 0 {
      assert s + t == s;
    } else {
      assert (s + t)[..|s + t| - 1] == s + t[..|t| - 1];
      CountAppend(s, t[..|t| - 1], x);
    }
  }
}

=== FILE: handle_links.dfy ===
/** The handle lists of AbstractYarnJob (`appLinks`, `jobLinks`): ids mined from
    log lines, appended when not seen before, so each list is duplicate-free and
    keeps the order in which ids first appeared. */
module HandleLinks {
  import opened Base
  import opened IdMatching

  /** Position of the first occurrence of `x` in `s`, or `|s|` when absent. */
  function FirstIndex(s: seq<string>, x: string): (r: nat)
    ensures r <= |s|
    ensures r < |s| ==> s[r] == x && x !in s[..r]
    ensures r == |s| ==> x !in s
  {
    if |s| == 0 then 0
    else if x in s[..|s| - 1] then FirstIndex(s[..|s| - 1], x)
    else if s[|s| - 1] == x then |s| - 1
    else |s|
  }

  /** The ids that a batch of lines yields for one pattern, line by line: the
      value of every non-empty `find()` result, in line order. A line adds at
      most one id. */
  function FoundIds(lines: seq<string>, prefix: string): (r: seq<string>)
    ensures |r| <= |lines|
  {
    if |lines| == 0 then []
    else
      var found := FindId(lines[|lines| - 1], prefix);
      FoundIds(lines[..|lines| - 1], prefix) + (if IsNotEmpty(found) then [found.value] else [])
  }

  /** Every id of a batch comes from a line where it is that line's `find()`
      result, and every line whose `find()` result is non-empty contributes it. */
  lemma {:induction false} FoundIdsSpec(lines: seq<string>, prefix: string)
    ensures forall x :: x in FoundIds(lines, prefix) ==>
              exists j :: 0 <= j < |lines| && FindId(lines[j], prefix) == Some(x)
    ensures forall j :: 0 <= j < |lines| && IsNotEmpty(FindId(lines[j], prefix)) ==>
              FindId(lines[j], prefix).value in FoundIds(lines, prefix)
  {
    if |lines| > 0 {
      var n := |lines|;
      var init := lines[..n - 1];
      FoundIdsSpec(init, prefix);
      forall j | 0 <= j < n - 1
        ensures init[j] == lines[j]
      {
      }
    }
  }

  /** Append to `links`, in order, every id of `ids` that is not already there. */
  function AddNew(links: seq<string>, ids: seq<string>): (r: seq<string>)
    ensures links <= r
    ensures |r| <= |links| + |ids|
  {
    if |ids| == 0 then links
    else
      var prev := AddNew(links, ids[..|ids| - 1]);
      var id := ids[|ids| - 1];
      if id in prev then prev else prev + [id]
  }

  /** What `AddNew` promises: the old list is kept as a prefix; the new list
      holds exactly the old ids and the batch's ids; nothing in the new suffix
      was there before; no id is duplicated; and the new suffix lists ids in the
      order of their first appearance in the batch. */
  lemma {:induction false} AddNewSpec(links: seq<string>, ids: seq<string>)
    ensures var r := AddNew(links, ids);
            && (forall x :: x in r <==> x in links || x in ids)
            && (forall a :: |links| <= a < |r| ==> r[a] !in links)
            && (NoDup(links) ==> NoDup(r))
            && (forall a, b :: |links| <= a < b < |r| ==> FirstIndex(ids, r[a]) < FirstIndex(ids, r[b]))
  {
    if |ids| > 0 {
      var init := ids[..|ids| - 1];
      AddNewSpec(links, init);
      var id := ids[|ids| - 1];
      assert forall x :: x in ids <==> x in init || x == id;
    }
  }

  /** One more id: appended when new, ignored otherwise. */
  lemma AddNewStep(links: seq<string>, ids: seq<string>, id: string)
    ensures AddNew(links, ids + [id]) ==
              var prev := AddNew(links, ids); if id in prev then prev else prev + [id]
  {
    assert (ids + [id])[..|ids|] == ids;
  }

  /** One more line: its non-empty `find()` result, if any, follows the ids of
      the lines before it. */
  lemma FoundIdsStep(lines: seq<string>, k: nat, prefix: string)
    requires k < |lines|
    ensures FoundIds(lines[..k + 1], prefix) ==
              FoundIds(lines[..k], prefix)
              + (if IsNotEmpty(FindId(lines[k], prefix)) then [FindId(lines[k], prefix).value] else [])
  {
    assert lines[..k + 1][..k] == lines[..k];
  }

  /** The list grows exactly when the batch holds an id it did not have. */
  lemma {:induction false} AddNewGrowsIffFresh(links: seq<string>, ids: seq<string>)
    ensures |AddNew(links, ids)| > |links| <==> exists x :: x in ids && x !in links
  {
    var r := AddNew(links, ids);
    AddNewSpec(links, ids);
    if |r| > |links| {
      assert r[|links|] in ids;
    } else {
      assert r == links;
    }
  }

  /** Each id occurs in the list exactly once after a batch, whatever the
      duplicates across and within batches. */
  lemma AddNewOnce(links: seq<string>, ids: seq<string>, x: string)
    requires NoDup(links)
    requires x in links || x in ids
    ensures Count(AddNew(links, ids), x) == 1
  {
    var r := AddNew(links, ids);
    AddNewSpec(links, ids);
    var i :| 0 <= i < |r| && r[i] == x;
    CountUnique(r, i);
  }

  lemma {:induction false} CountUnique(s: seq<string>, i: nat)
    requires NoDup(s)
    requires i < |s|
    ensures Count(s, s[i]) == 1
    decreases |s|
  {
    var init := s[..|s| - 1];
    assert NoDup(init);
    if i == |s| - 1 {
      assert s[i] !in init;
    } else {
      assert init[i] == s[i];
      CountUnique(init, i);
    }
  }

  /** Feeding two batches one after the other is the same as feeding their
      concatenation: the lists depend on the ids seen, not on how the log was
      cut into batches. */
  lemma {:induction false} AddNewBatches(links: seq<string>, ids1: seq<string>, ids2: seq<string>)
    ensures AddNew(AddNew(links, ids1), ids2) == AddNew(links, ids1 + ids2)
    decreases |ids2|
  {
    if |ids2| == 0 {
      assert ids1 + ids2 == ids1;
    } else {
      assert (ids1 + ids2)[..|ids1 + ids2| - 1] == ids1 + ids2[..|ids2| - 1];
      AddNewBatches(links, ids1, ids2[..|ids2| - 1]);
    }
  }

  /** The ids of a batch of lines are the ids of its first part followed by
      those of the rest. */
  lemma {:induction false} FoundIdsAppend(lines1: seq<string>, lines2: seq<string>, prefix: string)
    ensures FoundIds(lines1 + lines2, prefix) == FoundIds(lines1, prefix) + FoundIds(lines2, prefix)
    decreases |lines2|
  {
    if |lines2| == 0 {
      assert lines1 + lines2 == lines1;
    } else {
      var all := lines1 + lines2;
      assert all[..|all| - 1] == lines1 + lines2[..|lines2| - 1];
      assert all[|all| - 1] == lines2[|lines2| - 1];
      FoundIdsAppend(lines1, lines2[..|lines2| - 1], prefix);
    }
  }

  /** The scan loop of `logProcess`: for each line, the first application id and
      the first job id it holds are appended when new; each flag records whether
      its list gained anything. */
  method ScanLog(appLinks: seq<string>, jobLinks: seq<string>, lines: seq<string>)
    returns (apps: seq<string>, jobs: seq<string>, capturedApp: bool, capturedJob: bool)
    ensures apps == AddNew(appLinks, FoundIds(lines, ApplicationPrefix))
    ensures jobs == AddNew(jobLinks, FoundIds(lines, JobPrefix))
    ensures capturedApp <==> |apps| > |appLinks|
    ensures capturedJob <==> |jobs| > |jobLinks|
  {
    apps, jobs := appLinks, jobLinks;
    capturedApp, capturedJob := false, false;
    var k := 0;
    while k < |lines|
      invariant 0 <= k <= |lines|
      invariant apps == AddNew(appLinks, FoundIds(lines[..k], ApplicationPrefix))
      invariant jobs == AddNew(jobLinks, FoundIds(lines[..k], JobPrefix))
      invariant capturedApp <==> |apps| > |appLinks|
      invariant capturedJob <==> |jobs| > |jobLinks|
    {
      FoundIdsStep(lines, k, ApplicationPrefix);
      FoundIdsStep(lines, k, JobPrefix);
      var appId := FindAppId(lines[k]);
      if IsNotEmpty(appId) {
        AddNewStep(appLinks, FoundIds(lines[..k], ApplicationPrefix), appId.value);
      } else {
        assert FoundIds(lines[..k + 1], ApplicationPrefix) == FoundIds(lines[..k], ApplicationPrefix);
      }
      if IsNotEmpty(appId) && appId.value !in apps {
        apps := apps + [appId.value];
        capturedApp := true;
      }
      var jobId := FindJobId(lines[k]);
      if IsNotEmpty(jobId) {
        AddNewStep(jobLinks, FoundIds(lines[..k], JobPrefix), jobId.value);
      } else {
        assert FoundIds(lines[..k + 1], JobPrefix) == FoundIds(lines[..k], JobPrefix);
      }
      if IsNotEmpty(jobId) && jobId.value !in jobs {
        jobs := jobs + [jobId.value];
        capturedJob := true;
      }
      k := k + 1;
    }
    assert lines[..k] == lines;
  }
}

=== FILE: id_matching.dfy ===
/** The two identifier patterns AbstractYarnJob mines from log lines:
    `application_\d+_\d+` and `job_\d+_\d+`, searched with Java's
    `Matcher.find()` and returned with `group()`.

    `find()` reports the leftmost position where the pattern matches. At that
    position the greedy `\d+` quantifiers decide the length: the first digit run
    cannot end early (the `_` that follows it is not a digit), and the second
    takes every digit available, so the reported match is the longest one that
    starts there. */
module IdMatching {
  import opened Base

  const ApplicationPrefix: string := "application_"
  const JobPrefix: string := "job_"

  /** `\d` without the UNICODE_CHARACTER_CLASS flag: ASCII digits only. */
  predicate IsDigit(c: char) {
    '0' <= c <= '9'
  }

  predicate AllDigits(s: string) {
    forall k :: 0 <= k < |s| ==> IsDigit(s[k])
  }

  /** `w` is a word of the language `prefix \d+ _ \d+`, with `k` the position of
      the separating underscore. */
  ghost predicate SplitAt(w: string, prefix: string, k: int) {
    && |prefix| < k < |w| - 1
    && w[..|prefix|] == prefix
    && w[k] == '_'
    && AllDigits(w[|prefix|..k])
    && AllDigits(w[k + 1..])
  }

  /** `w` is a word of the language `prefix \d+ _ \d+`. */
  ghost predicate InLanguage(w: string, prefix: string) {
    exists k :: SplitAt(w, prefix, k)
  }

  /** The pattern matches the `len` characters of `line` starting at `i`. */
  ghost predicate MatchAt(line: string, prefix: string, i: int, len: int) {
    0 <= i && 0 <= len && i + len <= |line| && InLanguage(line[i..i + len], prefix)
  }

  /** The match `find()` reports: leftmost start, longest length there. */
  ghost predicate IsFirstMatch(line: string, prefix: string, i: int, len: int) {
    && MatchAt(line, prefix, i, len)
    && (forall j, l :: 0 <= j < i && MatchAt(line, prefix, j, l) ==> false)
    && (forall l :: len < l && MatchAt(line, prefix, i, l) ==> false)
  }

  /** A region of a line: start index and length. */
  datatype Span = Span(start: nat, len: nat)

  /** Length of the run of digits of `line` that starts at `from`. */
  function DigitRun(line: string, from: nat): (n: nat)
    requires from <= |line|
    ensures from + n <= |line|
    ensures AllDigits(line[from..from + n])
    ensures from + n == |line| || !IsDigit(line[from + n])
    decreases |line| - from
  {
    if from < |line| && IsDigit(line[from]) then
      var n := 1 + DigitRun(line, from + 1);
      assert forall k :: from + 1 <= k < from + n ==> IsDigit(line[k]) by {
        forall k | from + 1 <= k < from + n
          ensures IsDigit(line[k])
        {
          assert line[from + 1..from + n][k - from - 1] == line[k];
        }
      }
      forall k | from <= k < from + n
        ensures line[from..from + n][k - from] == line[k]
      {
      }
      n
    else 0
  }

  /** A maximal digit run is at least as long as any all-digit stretch there. */
  lemma DigitRunCovers(line: string, from: nat, m: nat)
    requires from + m <= |line|
    requires AllDigits(line[from..from + m])
    ensures m <= DigitRun(line, from)
  {
    forall k | from <= k < from + m
      ensures IsDigit(line[k])
    {
      assert line[from..from + m][k - from] == line[k];
    }
  }

  /** A digit run ends no later than the first non-digit. */
  lemma DigitRunBounded(line: string, from: nat, m: nat)
    requires from + m < |line|
    requires !IsDigit(line[from + m])
    ensures DigitRun(line, from) <= m
  {
    var n := DigitRun(line, from);
    forall k | from <= k < from + n
      ensures IsDigit(line[k])
    {
      assert line[from..from + n][k - from] == line[k];
    }
  }

  /** The length of the longest match starting exactly at `i`, if any, computed
      the way the greedy regex engine does. */
  function MatchLengthAt(line: string, prefix: string, i: nat): Option<nat>
    requires i <= |line|
  {
    if i + |prefix| <= |line| && line[i..i + |prefix|] == prefix then
      var d1 := DigitRun(line, i + |prefix|);
      var u := i + |prefix| + d1;
      if d1 > 0 && u < |line| && line[u] == '_' then
        var d2 := DigitRun(line, u + 1);
        if d2 > 0 then Some(|prefix| + d1 + 1 + d2) else None
      else None
    else None
  }

  lemma SliceOfSlice(s: string, i: int, j: int, a: int, b: int)
    requires 0 <= i <= j <= |s|
    requires 0 <= a <= b <= j - i
    ensures s[i..j][a..b] == s[i + a..i + b]
  {
    var lhs, rhs := s[i..j][a..b], s[i + a..i + b];
    assert |lhs| == |rhs|;
    forall k | 0 <= k < |lhs|
      ensures lhs[k] == rhs[k]
    {
    }
  }

  /** Any match at `i` splits at the end of the maximal digit run after the
      prefix, and the prefix is really there. */
  lemma SplitOfMatch(line: string, prefix: string, i: nat, l: int) returns (k: int)
    requires i <= |line|
    requires MatchAt(line, prefix, i, l)
    ensures SplitAt(line[i..i + l], prefix, k)
    ensures i + |prefix| <= |line| && line[i..i + |prefix|] == prefix
    ensures DigitRun(line, i + |prefix|) == k - |prefix|
    ensures line[i + k] == '_'
    ensures AllDigits(line[i + k + 1..i + l])
  {
    var w := line[i..i + l];
    var p := |prefix|;
    k :| SplitAt(w, prefix, k);
    assert |w| == l;
    SliceOfSlice(line, i, i + l, 0, p);
    SliceOfSlice(line, i, i + l, p, k);
    SliceOfSlice(line, i, i + l, k + 1, l);
    assert w[k] == line[i + k];
    DigitRunCovers(line, i + p, k - p);
    DigitRunBounded(line, i + p, k - p);
  }

  /** Whatever the greedy computation returns is a match. */
  lemma MatchLengthAtSound(line: string, prefix: string, i: nat)
    requires i <= |line|
    requires MatchLengthAt(line, prefix, i).Some?
    ensures MatchAt(line, prefix, i, MatchLengthAt(line, prefix, i).value)
  {
    var p := |prefix|;
    var n := MatchLengthAt(line, prefix, i).value;
    var d1 := DigitRun(line, i + p);
    var u := i + p + d1;
    var d2 := DigitRun(line, u + 1);
    var w := line[i..i + n];
    assert w[..p] == line[i..i + p];
    assert w[p..p + d1] == line[i + p..u];
    assert w[p + d1 + 1..] == line[u + 1..u + 1 + d2];
    assert SplitAt(w, prefix, p + d1);
  }

  /** Every match at `i` is found by the greedy computation, and is no longer
      than what it returns. */
  lemma MatchLengthAtComplete(line: string, prefix: string, i: nat, l: int)
    requires i <= |line|
    requires MatchAt(line, prefix, i, l)
    ensures MatchLengthAt(line, prefix, i).Some?
    ensures l <= MatchLengthAt(line, prefix, i).value
  {
    var k := SplitOfMatch(line, prefix, i, l);
    DigitRunCovers(line, i + k + 1, l - k - 1);
  }

  /** The greedy computation agrees with the language: it finds a match at `i`
      exactly when there is one, and then the longest. */
  lemma MatchLengthAtCorrect(line: string, prefix: string, i: nat)
    requires i <= |line|
    ensures MatchLengthAt(line, prefix, i).Some? ==>
              var n := MatchLengthAt(line, prefix, i).value;
              MatchAt(line, prefix, i, n) && forall l :: MatchAt(line, prefix, i, l) ==> l <= n
    ensures MatchLengthAt(line, prefix, i).None? ==> forall l :: !MatchAt(line, prefix, i, l)
  {
    if MatchLengthAt(line, prefix, i).Some? {
      MatchLengthAtSound(line, prefix, i);
    }
    forall l | MatchAt(line, prefix, i, l)
      ensures MatchLengthAt(line, prefix, i).Some? && l <= MatchLengthAt(line, prefix, i).value
    {
      MatchLengthAtComplete(line, prefix, i, l);
    }
  }

  /** Scan positions `from`, `from + 1`, ... for the first match. */
  function SearchFrom(line: string, prefix: string, from: nat): (r: Option<Span>)
    requires from <= |line|
    ensures r.None? ==> forall j, l :: from <= j && MatchAt(line, prefix, j, l) ==> false
    ensures r.Some? ==>
              && from <= r.value.start
              && MatchAt(line, prefix, r.value.start, r.value.len)
              && (forall j, l :: from <= j < r.value.start && MatchAt(line, prefix, j, l) ==> false)
              && (forall l :: r.value.len < l && MatchAt(line, prefix, r.value.start, l) ==> false)
    decreases |line| - from
  {
    MatchLengthAtCorrect(line, prefix, from);
    match MatchLengthAt(line, prefix, from)
    case Some(n) => Some(Span(from, n))
    case None =>
      if from == |line| then None else SearchFrom(line, prefix, from + 1)
  }

  /** `Matcher.find()` from the start of the line: the leftmost-longest match. */
  function Search(line: string, prefix: string): (r: Option<Span>)
    ensures r.None? ==> forall j, l :: MatchAt(line, prefix, j, l) ==> false
    ensures r.Some? ==> IsFirstMatch(line, prefix, r.value.start, r.value.len)
  {
    SearchFrom(line, prefix, 0)
  }

  /** `find() ? group() : null` for one pattern. */
  function FindId(line: string, prefix: string): Option<string> {
    match Search(line, prefix)
    case None => None
    case Some(s) => Some(line[s.start..s.start + s.len])
  }

  /** `FindId` returns null exactly when the pattern occurs nowhere in the
      line, and otherwise the text of the leftmost-longest match. */
  lemma FindIdSpec(line: string, prefix: string)
    ensures FindId(line, prefix).None? <==> forall j, l :: MatchAt(line, prefix, j, l) ==> false
    ensures FindId(line, prefix).Some? ==>
              var w := FindId(line, prefix).value;
              exists i :: IsFirstMatch(line, prefix, i, |w|) && w == line[i..i + |w|]
  {
    match Search(line, prefix)
    case None =>
    case Some(s) =>
      var w := line[s.start..s.start + s.len];
      assert |w| == s.len;
      assert IsFirstMatch(line, prefix, s.start, |w|);
  }

  /** AbstractYarnJob.findAppId */
  function FindAppId(line: string): Option<string> {
    FindId(line, ApplicationPrefix)
  }

  /** AbstractYarnJob.findJobId */
  function FindJobId(line: string): Option<string> {
    FindId(line, JobPrefix)
  }

  /** The first match is unique: `find()` is deterministic. */
  lemma FirstMatchUnique(line: string, prefix: string, i: int, len: int, i': int, len': int)
    requires IsFirstMatch(line, prefix, i, len)
    requires IsFirstMatch(line, prefix, i', len')
    ensures i == i' && len == len'
  {
  }


  /** What `FindId` returns is a word of the pattern: it starts with the
      prefix, has digits, an underscore and digits. */
  lemma FoundIdInLanguage(line: string, prefix: string)
    requires FindId(line, prefix).Some?
    ensures InLanguage(FindId(line, prefix).value, prefix)
  {
    FindIdSpec(line, prefix);
    var w := FindId(line, prefix).value;
    var i :| IsFirstMatch(line, prefix, i, |w|) && w == line[i..i + |w|];
  }

  /** Every id found contains an underscore, so a line without one yields
      no id. */
  lemma FoundIdHasUnderscore(line: string, prefix: string)
    ensures FindId(line, prefix).Some? ==> '_' in line
  {
    if FindId(line, prefix).Some? {
      FindIdSpec(line, prefix);
      var w := FindId(line, prefix).value;
      var i :| IsFirstMatch(line, prefix, i, |w|) && w == line[i..i + |w|];
      var k :| SplitAt(w, prefix, k);
      assert w[k] == line[i + k];
    }
  }

  /** The second sample line of the source's demo, which mentions
      `application[147]` but holds no identifier. */
  const DemoPieces: seq<string> := [
    "sh.execserver.runner.node.NodeRunner:", "application[147] -  hive execute log",
    " : INFO  : Hadoop job information f", "or Stage-1: number of mappers: 1; n",
    "umber of reducers: 0"]

  const DemoLineWithoutIds: string :=
    DemoPieces[0] + DemoPieces[1] + DemoPieces[2] + DemoPieces[3] + DemoPieces[4]

  lemma DemoLineHasNoUnderscore()
    ensures '_' !in DemoLineWithoutIds
  {
    assert '_' !in DemoPieces[0];
    assert '_' !in DemoPieces[1];
    assert '_' !in DemoPieces[2];
    assert '_' !in DemoPieces[3];
    assert '_' !in DemoPieces[4];
  }

  /** Neither pattern matches anywhere in the sample line. */
  lemma DemoLineHasNoIds()
    ensures FindAppId(DemoLineWithoutIds) == None
    ensures FindJobId(DemoLineWithoutIds) == None
  {
    var line := DemoLineWithoutIds;
    DemoLineHasNoUnderscore();
    FoundIdHasUnderscore(line, ApplicationPrefix);
    FoundIdHasUnderscore(line, JobPrefix);
  }
}

=== FILE: job_props.dfy ===
/** JobProps: the immutable description of one job invocation that NodeRunner
    builds and every job kind reads. */
module JobProps {
  import opened Base

  datatype Props = Props(
    jobParams: string,                 // the node's raw parameter text
    workDir: string,                   // script directory of this execution
    proxyUser: Option<string>,         // user the job runs as, may be null
    definedParams: map<string, string>,
    projectId: int,
    workflowId: int,
    nodeName: string,
    execId: int,
    envFile: Option<string>,           // shell environment sourced by scripts, may be null
    queue: string,
    flowStartTime: int,
    flowTimeout: int,
    jobAppId: string                   // tag that namespaces generated scripts
  )
}

=== FILE: kill_script.dfy ===
/** AbstractYarnJob.cancelApplication: the kill script for the most recent YARN
    application, the file it is written to, and the command that runs it. The
    file system is a map from path to content; running the command is left to
    the caller, which only sees the command text. */
module KillScript {
  import opened Base
  import opened JobProps

  const Shebang: string := "#!/bin/sh\n"
  const BaseDirLine: string := "BASEDIR=$(cd `dirname $0`; pwd)\n"
  const CdLine: string := "cd $BASEDIR\n"
  const SourceKeyword: string := "source "
  const KillCommandPrefix: string := "yarn application -kill "
  const SudoPrefix: string := "sudo -u "
  const ShPrefix: string := "sh "

  /** The three fixed lines every kill script starts with. */
  const Header: string := Shebang + BaseDirLine + CdLine

  /** `%s/%s_%s.kill` over work directory, job tag and application id. */
  function KillScriptPath(workDir: string, jobAppId: string, appId: string): string {
    workDir + "/" + jobAppId + "_" + appId + ".kill"
  }

  /** The text of the script: header, `source <envFile>` only when an
      environment file is configured, two newlines and the kill command. */
  function KillScriptText(appId: string, envFile: Option<string>): string {
    Header
    + (if envFile.Some? then SourceKeyword + envFile.value + "\n" else "")
    + "\n\n" + KillCommandPrefix + appId
  }

  /** `sh <file>`, run as the proxy user through sudo when one is set. */
  function RunCommand(commandFile: string, proxyUser: Option<string>): string {
    if IsNotEmpty(proxyUser) then SudoPrefix + proxyUser.value + " " + ShPrefix + commandFile
    else ShPrefix + commandFile
  }

  /** Two different applications of one job never share a kill script file. */
  lemma KillScriptPathInjective(workDir: string, jobAppId: string, a1: string, a2: string)
    requires KillScriptPath(workDir, jobAppId, a1) == KillScriptPath(workDir, jobAppId, a2)
    ensures a1 == a2
  {
    var pre := workDir + "/" + jobAppId + "_";
    var p1 := KillScriptPath(workDir, jobAppId, a1);
    var p2 := KillScriptPath(workDir, jobAppId, a2);
    assert p1 == pre + a1 + ".kill";
    assert p2 == pre + a2 + ".kill";
    assert |a1| == |a2|;
    assert p1[|pre|..|pre| + |a1|] == a1;
    assert p2[|pre|..|pre| + |a2|] == a2;
  }

  /** First position of `c` in `s`, or `|s|` when absent. */
  function IndexOf(s: string, c: char): (r: nat)
    ensures r <= |s|
    ensures r < |s| ==> s[r] == c
    ensures c !in s[..r]
  {
    if |s| == 0 then 0
    else if s[0] == c then 0
    else
      var n := 1 + IndexOf(s[1..], c);
      assert s[..n] == [s[0]] + s[1..][..n - 1];
      n
  }

  /** The first `c` is found right after a stretch without one. */
  lemma {:induction false} IndexOfAfter(t: string, c: char, rest: string)
    requires c !in t
    ensures IndexOf(t + [c] + rest, c) == |t|
    decreases |t|
  {
    if |t| > 0 {
      assert (t + [c] + rest)[1..] == t[1..] + [c] + rest;
      IndexOfAfter(t[1..], c, rest);
    }
  }

  /** What a kill script says: which environment it sources and which
      application it kills. */
  datatype ScriptContent = ScriptContent(envFile: Option<string>, appId: string)

  /** Read a kill script back; `None` when the text is not shaped like one. */
  function ParseKillScript(text: string): Option<ScriptContent> {
    var tail := "\n\n" + KillCommandPrefix;
    if !(Header <= text) then None
    else
      var rest := text[|Header|..];
      if SourceKeyword <= rest then
        var line := rest[|SourceKeyword|..];
        var n := IndexOf(line, '\n');
        if n == |line| then None
        else
          var after := line[n + 1..];
          if tail <= after then Some(ScriptContent(Some(line[..n]), after[|tail|..])) else None
      else if tail <= rest then Some(ScriptContent(None, rest[|tail|..]))
      else None
  }

  /** The script can be read back: it kills exactly the application it was
      written for and sources exactly the configured environment file (whose
      path, being one line of the script, holds no newline). */
  lemma KillScriptRoundTrip(appId: string, envFile: Option<string>)
    requires envFile.Some? ==> '\n' !in envFile.value
    ensures ParseKillScript(KillScriptText(appId, envFile)) == Some(ScriptContent(envFile, appId))
  {
    var text := KillScriptText(appId, envFile);
    var tail := "\n\n" + KillCommandPrefix;
    var body := if envFile.Some? then SourceKeyword + envFile.value + "\n" else "";
    assert text == Header + (body + tail + appId);
    assert text[..|Header|] == Header;
    assert text[|Header|..] == body + tail + appId;
    if envFile.Some? {
      SourcedScriptBody(envFile.value, tail, appId);
    } else {
      PlainScriptBody(tail, appId);
    }
  }

  lemma PlainScriptBody(tail: string, appId: string)
    requires tail == "\n\n" + KillCommandPrefix
    ensures !(SourceKeyword <= tail + appId)
    ensures tail <= tail + appId && (tail + appId)[|tail|..] == appId
  {
    assert (tail + appId)[0] == '\n';
  }

  lemma SourcedScriptBody(e: string, tail: string, appId: string)
    requires '\n' !in e
    ensures var rest := SourceKeyword + e + "\n" + tail + appId;
            && SourceKeyword <= rest
            && var line := rest[|SourceKeyword|..];
               && IndexOf(line, '\n') == |e|
               && line[..|e|] == e
               && line[|e| + 1..] == tail + appId
  {
    var rest := SourceKeyword + e + "\n" + tail + appId;
    assert rest[..|SourceKeyword|] == SourceKeyword;
    var line := rest[|SourceKeyword|..];
    assert line == e + ['\n'] + (tail + appId);
    IndexOfAfter(e, '\n', tail + appId);
    assert line[|e| + 1..] == tail + appId;
  }

  /** What a run command says: the sudo user, if any, and the script file. */
  datatype Invocation = Invocation(runAs: Option<string>, commandFile: string)

  /** Read a run command back; `None` when it is not shaped like one. */
  function ParseRunCommand(cmd: string): Option<Invocation> {
    if SudoPrefix <= cmd then
      var rest := cmd[|SudoPrefix|..];
      var n := IndexOf(rest, ' ');
      if n == |rest| then None
      else
        var after := rest[n + 1..];
        if ShPrefix <= after then Some(Invocation(Some(rest[..n]), after[|ShPrefix|..])) else None
    else if ShPrefix <= cmd then Some(Invocation(None, cmd[|ShPrefix|..]))
    else None
  }

  /** The run command can be read back: it runs exactly the given script, as
      the proxy user when that is non-empty and as the server's own user
      otherwise (a user name holds no space). */
  lemma RunCommandRoundTrip(commandFile: string, proxyUser: Option<string>)
    requires proxyUser.Some? ==> ' ' !in proxyUser.value
    ensures ParseRunCommand(RunCommand(commandFile, proxyUser))
            == Some(Invocation(if IsNotEmpty(proxyUser) then proxyUser else None, commandFile))
  {
    var cmd := RunCommand(commandFile, proxyUser);
    if IsNotEmpty(proxyUser) {
      var u := proxyUser.value;
      assert cmd == SudoPrefix + u + " " + ShPrefix + commandFile;
      assert cmd[..|SudoPrefix|] == SudoPrefix;
      var rest := cmd[|SudoPrefix|..];
      assert rest == u + [' '] + (ShPrefix + commandFile);
      IndexOfAfter(u, ' ', ShPrefix + commandFile);
      assert rest[..|u|] == u;
      var after := rest[|u| + 1..];
      assert after == ShPrefix + commandFile;
      assert after[..|ShPrefix|] == ShPrefix;
      assert after[|ShPrefix|..] == commandFile;
    } else {
      assert cmd == ShPrefix + commandFile;
      assert cmd[..|ShPrefix|] == ShPrefix;
      assert cmd[1] != SudoPrefix[1];
    }
  }

  /** How `cancelApplication` ended. */
  datatype KillOutcome =
    | NoApplication                               // no application id seen yet: nothing done
    | WriteFailed(path: string)                   // writing the script threw; nothing was run
    | Issued(path: string, command: string)       // the command was handed to the shell

  datatype KillResult = KillResult(files: map<string, string>, outcome: KillOutcome)

  /** `cancelApplication(appLinks, props)`: target the last application id
      only; write its script unless the file exists (`writeFails` is the file
      system's answer to that write); then issue the run command. A failure to
      start the command is swallowed, so it does not show here. */
  function CancelApplication(appLinks: seq<string>, props: Props, files: map<string, string>,
                             writeFails: bool): (r: KillResult)
    ensures |appLinks| == 0 ==> r == KillResult(files, NoApplication)
    ensures |appLinks| > 0 ==>
              var appId := appLinks[|appLinks| - 1];
              var path := KillScriptPath(props.workDir, props.jobAppId, appId);
              && (path in files ==> r == KillResult(files, Issued(path, RunCommand(path, props.proxyUser))))
              && (path !in files && writeFails ==> r == KillResult(files, WriteFailed(path)))
              && (path !in files && !writeFails ==>
                    r == KillResult(files[path := KillScriptText(appId, props.envFile)],
                                    Issued(path, RunCommand(path, props.proxyUser))))
  {
    if |appLinks| == 0 then KillResult(files, NoApplication)
    else
      var appId := appLinks[|appLinks| - 1];
      var commandFile := KillScriptPath(props.workDir, props.jobAppId, appId);
      if commandFile !in files && writeFails then KillResult(files, WriteFailed(commandFile))
      else
        var files' := if commandFile in files then files
                      else files[commandFile := KillScriptText(appId, props.envFile)];
        KillResult(files', Issued(commandFile, RunCommand(commandFile, props.proxyUser)))
  }

  /** Cancelling twice is harmless: once the script exists the second call
      leaves every file as it is and issues the same command. */
  lemma CancelApplicationIdempotent(appLinks: seq<string>, props: Props, files: map<string, string>,
                                    writeFails: bool, writeFails': bool)
    requires CancelApplication(appLinks, props, files, writeFails).outcome.Issued?
    ensures var first := CancelApplication(appLinks, props, files, writeFails);
            CancelApplication(appLinks, props, first.files, writeFails') == first
  {
  }

  /** An existing script file is never rewritten, and no file other than the
      target script is ever touched. */
  lemma CancelApplicationFramesFiles(appLinks: seq<string>, props: Props, files: map<string, string>,
                                     writeFails: bool)
    ensures var r := CancelApplication(appLinks, props, files, writeFails);
            && files.Keys <= r.files.Keys
            && (forall p :: p in files ==> r.files[p] == files[p])
            && (forall p :: p in r.files && p !in files ==>
                  |appLinks| > 0 && p == KillScriptPath(props.workDir, props.jobAppId, appLinks[|appLinks| - 1]))
  {
  }

  /** Only the most recent application id matters: two histories that end in
      the same id lead to the same files and the same command. */
  lemma CancelApplicationOnlyLast(links1: seq<string>, links2: seq<string>, props: Props,
                                  files: map<string, string>, writeFails: bool)
    requires |links1| > 0 && |links2| > 0
    requires links1[|links1| - 1] == links2[|links2| - 1]
    ensures CancelApplication(links1, props, files, writeFails)
            == CancelApplication(links2, props, files, writeFails)
  {
  }
}

=== FILE: node_runner.dfy ===
/** NodeRunner: runs one DAG node as a job under a concurrency permit. The job
    factory and the job's phases are outside the model; each phase is given by
    how it returns (normally or by throwing). The semaphore is a permit count. */
module NodeRunner {
  import opened Base
  import opened JobProps

  // ---------------------------------------------------------------------------
  // Inputs of a call

  datatype ExecutionFlow = ExecutionFlow(
    id: int, projectId: int, flowId: int, proxyUser: Option<string>,
    queue: string, startTime: int, timeout: int)

  datatype ExecutionNode = ExecutionNode(name: string, jobId: string)

  datatype FlowNode = FlowNode(name: string, nodeType: string, parameter: string)

  /** Everything NodeRunner reads besides the job: the JobContext it was built
      from, plus the answers of the helpers it calls (`BaseConfig` paths and the
      md5 digest of the node name). */
  datatype NodeContext = NodeContext(
    flow: ExecutionFlow,
    node: ExecutionNode,
    flowNode: FlowNode,
    systemParams: Option<map<string, string>>,
    customParams: Option<map<string, string>>,
    flowExecDir: string,        // BaseConfig.getFlowExecDir(projectId, flowId, id)
    systemEnvPath: Option<string>,  // BaseConfig.getSystemEnvPath()
    nodeNameDigest: string      // HttpUtil.getMd5(node.name)
  )

  // ---------------------------------------------------------------------------
  // Parameters and the job tag

  /** `putAll(system)` then `putAll(custom)` into an empty map; a null map
      contributes nothing. */
  function MergeParams(system: Option<map<string, string>>, custom: Option<map<string, string>>)
    : (r: map<string, string>)
    ensures forall k :: k in r <==> (system.Some? && k in system.value) || (custom.Some? && k in custom.value)
    ensures forall k :: custom.Some? && k in custom.value ==> r[k] == custom.value[k]
    ensures forall k :: system.Some? && k in system.value && !(custom.Some? && k in custom.value) ==>
              r[k] == system.value[k]
  {
    system.GetOr(map[]) + custom.GetOr(map[])
  }

  /** Custom parameters are never shadowed: merging adds nothing to a custom
      map's own entries, and with no system map the result is the custom map. */
  lemma MergeParamsCustomWins(system: Option<map<string, string>>, custom: map<string, string>)
    ensures forall k :: k in custom ==> MergeParams(system, Some(custom))[k] == custom[k]
    ensures MergeParams(None, Some(custom)) == custom
    ensures MergeParams(system, None) == system.GetOr(map[])
  {
  }

  /** `jobId + "_" + md5(nodeName).substring(0, 8)`. */
  function JobAppId(jobId: string, digest: string): string
    requires |digest| >= 8
  {
    jobId + "_" + digest[..8]
  }

  /** The job tag splits back into the node's job id and the first eight
      characters of the digest: the last eight characters are the digest
      prefix and the character before them is the separator. */
  lemma JobAppIdRoundTrip(jobId: string, digest: string)
    requires |digest| >= 8
    ensures var tag := JobAppId(jobId, digest);
            && |tag| == |jobId| + 9
            && tag[..|tag| - 9] == jobId
            && tag[|tag| - 9] == '_'
            && tag[|tag| - 8..] == digest[..8]
  {
    var tag := JobAppId(jobId, digest);
    assert tag == jobId + "_" + digest[..8];
  }

  /** Two nodes get the same tag only if they have the same job id and their
      digests share the first eight characters. */
  lemma JobAppIdInjective(jobId1: string, digest1: string, jobId2: string, digest2: string)
    requires |digest1| >= 8 && |digest2| >= 8
    requires JobAppId(jobId1, digest1) == JobAppId(jobId2, digest2)
    ensures jobId1 == jobId2 && digest1[..8] == digest2[..8]
  {
    JobAppIdRoundTrip(jobId1, digest1);
    JobAppIdRoundTrip(jobId2, digest2);
  }

  /** The JobProps a call builds. */
  function BuildProps(ctx: NodeContext): Props
    requires |ctx.nodeNameDigest| >= 8
  {
    Props(
      jobParams := ctx.flowNode.parameter,
      workDir := ctx.flowExecDir,
      proxyUser := ctx.flow.proxyUser,
      definedParams := MergeParams(ctx.systemParams, ctx.customParams),
      projectId := ctx.flow.projectId,
      workflowId := ctx.flow.flowId,
      nodeName := ctx.flowNode.name,
      execId := ctx.flow.id,
      envFile := ctx.systemEnvPath,
      queue := ctx.flow.queue,
      flowStartTime := ctx.flow.startTime,
      flowTimeout := ctx.flow.timeout,
      jobAppId := JobAppId(ctx.node.jobId, ctx.nodeNameDigest))
  }

  // ---------------------------------------------------------------------------
  // The job as the runner sees it

  /** How each step of the job returns when the runner calls it, the exit
      code it reports, whether `isStarted()` holds when the runner looks, and
      how `cancel()` returns. */
  datatype JobRun = JobRun(
    newJob: Outcome, before: Outcome, process: Outcome, after: Outcome,
    exitCode: int, started: bool, cancel: Outcome)

  /** The observable steps of a call, in order. */
  datatype Event = NewJob | Before | Process | After | CancelJob | Release

  /** The lifecycle steps, in the order the runner calls them. */
  const Lifecycle: seq<Event> := [NewJob, Before, Process, After]

  /** All lifecycle steps before the `i`-th returned normally. */
  predicate ReachesStep(run: JobRun, i: nat) {
    && (i <= 0 || run.newJob == Normal)
    && (i <= 1 || run.before == Normal)
    && (i <= 2 || run.process == Normal)
    && (i <= 3 || run.after == Normal)
  }

  /** Some lifecycle step that the runner reached ended with `o`. */
  predicate FailsWith(run: JobRun, o: Outcome) {
    || run.newJob == o
    || (ReachesStep(run, 1) && run.before == o)
    || (ReachesStep(run, 2) && run.process == o)
    || (ReachesStep(run, 3) && run.after == o)
  }

  /** What `kill()` did: whether it called `job.cancel()`, whether it logged
      an exception from it, and whether an `Error` from it propagated out of
      `kill()`. */
  datatype KillReport = KillReport(cancelCalled: bool, errorLogged: bool, propagated: bool)

  /** `kill()`: cancel the job only if it exists and has started; log and
      swallow an exception from cancel, while an `Error` passes through. */
  function Kill(job: Option<JobRun>): (r: KillReport)
    ensures r.cancelCalled <==> job.Some? && job.value.started
    ensures r.errorLogged <==> r.cancelCalled && job.value.cancel == Threw
    ensures r.propagated <==> r.cancelCalled && job.value.cancel == Errored
  {
    match job
    case Some(j) =>
      if j.started then KillReport(true, j.cancel == Threw, j.cancel == Errored)
      else KillReport(false, false, false)
    case None => KillReport(false, false, false)
  }

  // ---------------------------------------------------------------------------
  // call()

  /** The try block: the lifecycle steps attempted, how the block ended
      (normally, or with the exception or error of the step that stopped it),
      and whether the job object exists (the `job` field is set once `newJob`
      returns). */
  datatype Attempt = Attempt(steps: seq<Event>, ended: Outcome, jobCreated: bool)

  function TryBlock(run: JobRun): Attempt {
    if run.newJob != Normal then Attempt([NewJob], run.newJob, false)
    else if run.before != Normal then Attempt([NewJob, Before], run.before, true)
    else if run.process != Normal then Attempt([NewJob, Before, Process], run.process, true)
    else Attempt([NewJob, Before, Process, After], run.after, true)
  }

  /** The try block attempts a step exactly when every step before it
      returned normally, and it ends with an exception or an error exactly
      when a step it reached did. */
  lemma TryBlockSpec(run: JobRun)
    ensures var a := TryBlock(run);
            && NewJob in a.steps
            && (Before in a.steps <==> ReachesStep(run, 1))
            && (Process in a.steps <==> ReachesStep(run, 2))
            && (After in a.steps <==> ReachesStep(run, 3))
            && CancelJob !in a.steps && Release !in a.steps
            && (a.ended == Normal <==> ReachesStep(run, 4))
            && (a.ended == Threw <==> FailsWith(run, Threw))
            && (a.ended == Errored <==> FailsWith(run, Errored))
            && (a.jobCreated <==> run.newJob == Normal)
            && 1 <= |a.steps| && a.steps == Lifecycle[..|a.steps|]
  {
  }

  /** The catch block: `catch (Exception e)` runs `kill()` only when the try
      block threw an exception, and `kill()` sees the job only if `newJob`
      returned it. An `Error` skips the catch block. */
  function KillOnFailure(run: JobRun, attempt: Attempt): KillReport {
    if attempt.ended == Threw then Kill(if attempt.jobCreated then Some(run) else None)
    else KillReport(false, false, false)
  }

  /** The steps attempted, then the cancel when `kill()` issued one, then the
      release in `finally`. */
  function CallEvents(steps: seq<Event>, cancelCalled: bool): seq<Event> {
    steps + (if cancelCalled then [CancelJob] else []) + [Release]
  }

  /** After the steps come at most one cancel and then exactly one release,
      which is the last event. */
  lemma CallEventsSpec(steps: seq<Event>, cancelCalled: bool)
    requires CancelJob !in steps && Release !in steps
    ensures var e := CallEvents(steps, cancelCalled);
            && |e| == |steps| + (if cancelCalled then 2 else 1)
            && Count(e, Release) == 1 && e[|e| - 1] == Release
            && Count(e, CancelJob) == (if cancelCalled then 1 else 0)
            && (cancelCalled ==> e[|e| - 2] == CancelJob)
            && (CancelJob in e <==> cancelCalled)
            && (forall x :: x != CancelJob && x != Release ==> (x in e <==> x in steps))
            && e[..|steps|] == steps
  {
    var extra: seq<Event> := if cancelCalled then [CancelJob] else [];
    CountAppend(steps + extra, [Release], Release);
    CountAppend(steps, extra, Release);
    CountAppend(steps + extra, [Release], CancelJob);
    CountAppend(steps, extra, CancelJob);
    assert Count([Release], Release) == 1;
    assert Count([Release], CancelJob) == 0;
    assert Count([CancelJob], CancelJob) == 1;
    assert (steps + extra + [Release])[..|steps|] == steps;
  }

  /** The outcome of `call()`: the value it returns (`None` when an `Error`
      propagates out of it instead), what it did, the permit count after it,
      and the JobProps it built. */
  datatype CallResult = CallResult(returned: Option<bool>, events: seq<Event>, permits: int, props: Props)

  /** `call()`: build the JobProps, run the lifecycle in a try block, kill the
      job when a step threw an exception, and release the permit in `finally`,
      also when an `Error` is on its way out. */
  function Call(ctx: NodeContext, run: JobRun, permits: int): (r: CallResult)
    requires |ctx.nodeNameDigest| >= 8
    ensures r.permits == permits + 1
    ensures Count(r.events, Release) == 1 && r.events[|r.events| - 1] == Release
    ensures r.returned == Some(true) <==> ReachesStep(run, 4) && run.exitCode == 0
    ensures r.returned == None <==>
              || FailsWith(run, Errored)
              || (FailsWith(run, Threw) && run.newJob == Normal && run.started && run.cancel == Errored)
    ensures CancelJob in r.events <==> FailsWith(run, Threw) && run.newJob == Normal && run.started
    ensures r.props.definedParams == MergeParams(ctx.systemParams, ctx.customParams)
    ensures r.props.jobAppId == JobAppId(ctx.node.jobId, ctx.nodeNameDigest)
  {
    var props := BuildProps(ctx);
    var attempt := TryBlock(run);
    TryBlockSpec(run);
    var kill := KillOnFailure(run, attempt);
    var escaped := attempt.ended == Errored || kill.propagated;
    var success := attempt.ended == Normal && run.exitCode == 0;
    var events := CallEvents(attempt.steps, kill.cancelCalled);
    CallEventsSpec(attempt.steps, kill.cancelCalled);
    CallResult(if escaped then None else Some(success), events, permits + 1, props)
  }

  /** A lifecycle step runs exactly when every step before it returned
      normally: `after` is skipped when `before` or `process` throws. */
  lemma CallStepRunsIffEarlierNormal(ctx: NodeContext, run: JobRun, permits: int)
    requires |ctx.nodeNameDigest| >= 8
    ensures var e := Call(ctx, run, permits).events;
            && NewJob in e
            && (Before in e <==> ReachesStep(run, 1))
            && (Process in e <==> ReachesStep(run, 2))
            && (After in e <==> ReachesStep(run, 3))
  {
    TryBlockSpec(run);
    var a := TryBlock(run);
    var k := KillOnFailure(run, a);
    assert Call(ctx, run, permits).events == CallEvents(a.steps, k.cancelCalled);
    CallEventsSpec(a.steps, k.cancelCalled);
  }

  /** The steps of a call always run in lifecycle order: what a call does is
      the first steps of `newJob, before, process, after`, then possibly one
      cancel, then the release. */
  lemma CallRunsStepsInOrder(ctx: NodeContext, run: JobRun, permits: int)
    requires |ctx.nodeNameDigest| >= 8
    ensures var e := Call(ctx, run, permits).events;
            exists n :: 1 <= n <= 4 &&
              (e == Lifecycle[..n] + [Release] || e == Lifecycle[..n] + [CancelJob, Release])
  {
    TryBlockSpec(run);
    var a := TryBlock(run);
    var k := KillOnFailure(run, a);
    var n := |a.steps|;
    assert Call(ctx, run, permits).events == CallEvents(a.steps, k.cancelCalled);
    if k.cancelCalled {
      assert CallEvents(a.steps, true) == Lifecycle[..n] + [CancelJob, Release];
    } else {
      assert CallEvents(a.steps, false) == Lifecycle[..n] + [Release];
    }
  }

  /** An `Error` from a lifecycle step skips `kill()`: no cancel is issued,
      `call()` returns no value, and the permit is released all the same. */
  lemma CallErrorSkipsKill(ctx: NodeContext, run: JobRun, permits: int)
    requires |ctx.nodeNameDigest| >= 8
    requires FailsWith(run, Errored)
    ensures var r := Call(ctx, run, permits);
            && r.returned == None
            && CancelJob !in r.events
            && r.permits == permits + 1
            && r.events[|r.events| - 1] == Release
  {
    TryBlockSpec(run);
  }

  // ---------------------------------------------------------------------------
  // The permit pool

  /** A counting semaphore of `capacity` permits, `available` of them free and
      one held by each of the `running` node runners. */
  datatype Gate = Gate(capacity: nat, available: int, running: nat)

  predicate GateInv(g: Gate) {
    g.available + g.running == g.capacity && 0 <= g.available
  }

  /** What happens to the pool: the orchestrator acquires a permit and starts a
      runner, or a running runner's call finishes (however its job behaves). */
  datatype GateStep = Start | Finish(ctx: NodeContext, run: JobRun)

  /** One step; a Start with no free permit blocks (nothing changes) and so
      does a Finish with no runner. */
  function GateApply(g: Gate, s: GateStep): Gate
    requires s.Finish? ==> |s.ctx.nodeNameDigest| >= 8
  {
    match s
    case Start => if g.available > 0 then g.(available := g.available - 1, running := g.running + 1) else g
    case Finish(ctx, run) =>
      if g.running > 0 then g.(available := Call(ctx, run, g.available).permits, running := g.running - 1)
      else g
  }

  predicate WellFormedSteps(steps: seq<GateStep>) {
    forall i :: 0 <= i < |steps| && steps[i].Finish? ==> |steps[i].ctx.nodeNameDigest| >= 8
  }

  function GateRun(g: Gate, steps: seq<GateStep>): Gate
    requires WellFormedSteps(steps)
    decreases |steps|
  {
    if |steps| == 0 then g else GateRun(GateApply(g, steps[0]), steps[1..])
  }

  /** For runners whose call reaches the try block: however they start and
      finish, and whether their jobs succeed, fail, throw an exception or
      raise an error, no permit leaks and no more than `capacity` runners are ever in
      flight; once all have finished every permit is back. */
  lemma {:induction false} GateNeverLeaks(g: Gate, steps: seq<GateStep>)
    requires GateInv(g)
    requires WellFormedSteps(steps)
    ensures GateInv(GateRun(g, steps))
    ensures GateRun(g, steps).running <= g.capacity
    ensures GateRun(g, steps).running == 0 ==> GateRun(g, steps).available == g.capacity
    decreases |steps|
  {
    if |steps| > 0 {
      var g' := GateApply(g, steps[0]);
      assert GateInv(g');
      assert WellFormedSteps(steps[1..]) by {
        forall i | 0 <= i < |steps[1..]| && steps[1..][i].Finish?
          ensures |steps[1..][i].ctx.nodeNameDigest| >= 8
        {
          assert steps[1..][i] == steps[i + 1];
        }
      }
      GateNeverLeaks(g', steps[1..]);
    }
  }
}

=== FILE: runner_manager.dfy ===
/** RunnerManager of the Spark SQL server: a registry from job id to the SQL
    executor built for it and the future of its submission. The single-thread
    executor is not modelled as a thread; its effect on a registered job (the
    result growing, the future becoming done) is an explicit step. */
module RunnerManager {
  import opened Base

  /** A UDF description as the RPC layer hands it over; its content is never
      looked at. */
  datatype UdfInfo = UdfInfo(name: string, className: string, resources: seq<string>)

  /** The shape of an ad-hoc query result: column titles and rows of cells. */
  datatype AdHocResult = AdHocResult(titles: seq<string>, values: seq<seq<string>>)

  /** A SparkSqlExec: what it was built with, whether `cancel()` was called on
      it, and the result it currently holds (null until it has one). */
  datatype SqlExec = SqlExec(
    jobId: string,
    udfCmds: seq<string>,
    sqls: seq<string>,
    queryLimit: Option<int>,    // null for ETL jobs
    stopTime: int,
    cancelled: bool,
    result: Option<AdHocResult>)

  /** A `jobInfo` entry: the executor and its future, reduced to `isDone()`. */
  datatype Entry = Entry(exec: SqlExec, done: bool)

  type Registry = map<string, Entry>

  /** `createUdf`: builds no command, whatever it is given. */
  function CreateUdf(udfs: seq<UdfInfo>): (r: seq<string>)
    ensures |r| == 0
  {
    []
  }

  /** A fresh executor as both submission paths build it, and its entry: not
      cancelled, future not done. Its result starts out absent (null); the
      executor class itself is outside this model. */
  function NewEntry(jobId: string, udfs: seq<UdfInfo>, sqls: seq<string>, limit: Option<int>,
                    stopTime: int): Entry
  {
    Entry(SqlExec(jobId, CreateUdf(udfs), sqls, limit, stopTime, false, None), false)
  }

  /** The result of a submission: the new registry and the returned flag. */
  datatype Submitted = Submitted(registry: Registry, accepted: bool)

  /** `executeEtlSql`: register a fresh executor without a row limit. */
  function ExecuteEtlSql(reg: Registry, jobId: string, udfs: seq<UdfInfo>, sqls: seq<string>,
                         stopTime: int): (r: Submitted)
    ensures r.accepted
    ensures r.registry.Keys == reg.Keys + {jobId}
    ensures r.registry[jobId].exec.queryLimit == None
    ensures r.registry[jobId].exec.jobId == jobId && r.registry[jobId].exec.sqls == sqls
    ensures r.registry[jobId].exec.stopTime == stopTime
    ensures !r.registry[jobId].done && !r.registry[jobId].exec.cancelled
    ensures forall id :: id in reg && id != jobId ==> r.registry[id] == reg[id]
  {
    Submitted(reg[jobId := NewEntry(jobId, udfs, sqls, None, stopTime)], true)
  }

  /** `executeAdhocSql`: register a fresh executor limited to `queryLimit`
      rows. */
  function ExecuteAdhocSql(reg: Registry, jobId: string, udfs: seq<UdfInfo>, sqls: seq<string>,
                           stopTime: int, queryLimit: int): (r: Submitted)
    ensures r.accepted
    ensures r.registry.Keys == reg.Keys + {jobId}
    ensures r.registry[jobId].exec.queryLimit == Some(queryLimit)
    ensures r.registry[jobId].exec.jobId == jobId && r.registry[jobId].exec.sqls == sqls
    ensures r.registry[jobId].exec.stopTime == stopTime
    ensures !r.registry[jobId].done && !r.registry[jobId].exec.cancelled
    ensures forall id :: id in reg && id != jobId ==> r.registry[id] == reg[id]
  {
    Submitted(reg[jobId := NewEntry(jobId, udfs, sqls, Some(queryLimit), stopTime)], true)
  }

  /** `getAdHocResult`: null for an unknown id, otherwise whatever the
      registered executor currently holds. */
  function GetAdHocResult(reg: Registry, jobId: string): (r: Option<AdHocResult>)
    ensures jobId !in reg ==> r == None
    ensures jobId in reg ==> r == reg[jobId].exec.result
  {
    if jobId in reg then reg[jobId].exec.result else None
  }

  /** The result of `cancelExecFlow`: the new registry and the returned flag. */
  datatype Cancelled = Cancelled(registry: Registry, accepted: bool)

  /** `cancelExecFlow`: nothing to cancel for an unknown id or a done future;
      otherwise ask the executor to stop and report success. */
  function CancelExecFlow(reg: Registry, jobId: string): (r: Cancelled)
    ensures r.accepted <==> jobId in reg && !reg[jobId].done
    ensures !r.accepted ==> r.registry == reg
    ensures r.registry.Keys == reg.Keys
    ensures r.accepted ==> r.registry[jobId].exec.cancelled
                           && r.registry[jobId] == reg[jobId].(exec := reg[jobId].exec.(cancelled := true))
    ensures forall id :: id in reg && id != jobId ==> r.registry[id] == reg[id]
  {
    if jobId !in reg || reg[jobId].done then Cancelled(reg, false)
    else
      var e := reg[jobId];
      Cancelled(reg[jobId := e.(exec := e.exec.(cancelled := true))], true)
  }

  /** What the executor thread does to a registered job between two calls:
      the executor's result is replaced and the future may become done (a done
      future stays done). Unknown ids are untouched. */
  function Progress(reg: Registry, jobId: string, result: Option<AdHocResult>, finished: bool): Registry {
    if jobId in reg then
      var e := reg[jobId];
      reg[jobId := Entry(e.exec.(result := result), e.done || finished)]
    else reg
  }

  // ---------------------------------------------------------------------------
  // The registry over a run

  datatype Op =
    | SubmitEtl(jobId: string, udfs: seq<UdfInfo>, sqls: seq<string>, stopTime: int)
    | SubmitAdhoc(jobId: string, udfs: seq<UdfInfo>, sqls: seq<string>, stopTime: int, queryLimit: int)
    | GetResult(jobId: string)
    | Cancel(jobId: string)
    | ExecutorStep(jobId: string, result: Option<AdHocResult>, finished: bool)

  function Apply(reg: Registry, op: Op): Registry {
    match op
    case SubmitEtl(id, udfs, sqls, stop) => ExecuteEtlSql(reg, id, udfs, sqls, stop).registry
    case SubmitAdhoc(id, udfs, sqls, stop, limit) => ExecuteAdhocSql(reg, id, udfs, sqls, stop, limit).registry
    case GetResult(_) => reg
    case Cancel(id) => CancelExecFlow(reg, id).registry
    case ExecutorStep(id, result, finished) => Progress(reg, id, result, finished)
  }

  function ApplyAll(reg: Registry, ops: seq<Op>): Registry
    decreases |ops|
  {
    if |ops| == 0 then reg else ApplyAll(Apply(reg, ops[0]), ops[1..])
  }

  /** Entries are never removed: whatever happens, every job id once
      registered stays registered. */
  lemma {:induction false} KeysOnlyGrow(reg: Registry, ops: seq<Op>)
    ensures reg.Keys <= ApplyAll(reg, ops).Keys
    decreases |ops|
  {
    if |ops| > 0 {
      var next := Apply(reg, ops[0]);
      assert reg.Keys <= next.Keys;
      KeysOnlyGrow(next, ops[1..]);
    }
  }

  /** A done future stays done, so a job that reported "nothing to cancel"
      because it finished will keep reporting it, unless it is resubmitted. */
  lemma {:induction false} DoneIsFinal(reg: Registry, ops: seq<Op>, jobId: string)
    requires jobId in reg && reg[jobId].done
    requires forall i :: 0 <= i < |ops| ==> !(ops[i].SubmitEtl? || ops[i].SubmitAdhoc?) || ops[i].jobId != jobId
    ensures jobId in ApplyAll(reg, ops) && ApplyAll(reg, ops)[jobId].done
    ensures !CancelExecFlow(ApplyAll(reg, ops), jobId).accepted
    decreases |ops|
  {
    if |ops| > 0 {
      var next := Apply(reg, ops[0]);
      assert jobId in next && next[jobId].done;
      forall i | 0 <= i < |ops[1..]|
        ensures !(ops[1..][i].SubmitEtl? || ops[1..][i].SubmitAdhoc?) || ops[1..][i].jobId != jobId
      {
        assert ops[1..][i] == ops[i + 1];
      }
      DoneIsFinal(next, ops[1..], jobId);
    }
  }

  /** A job just submitted can be cancelled, and it has no result yet. */
  lemma SubmitThenCancel(reg: Registry, jobId: string, udfs: seq<UdfInfo>, sqls: seq<string>,
                         stopTime: int, queryLimit: int)
    ensures var r := ExecuteAdhocSql(reg, jobId, udfs, sqls, stopTime, queryLimit).registry;
            && GetAdHocResult(r, jobId) == None
            && CancelExecFlow(r, jobId).accepted
  {
  }

  /** Resubmitting under an id replaces its entry: a cancel requested before
      the resubmission does not carry over to the new executor, and the old
      executor can no longer be reached through the registry. */
  lemma ResubmitReplaces(reg: Registry, jobId: string, udfs: seq<UdfInfo>, sqls: seq<string>,
                         stopTime: int)
    requires jobId in reg
    ensures var r := ExecuteEtlSql(CancelExecFlow(reg, jobId).registry, jobId, udfs, sqls, stopTime).registry;
            && !r[jobId].exec.cancelled
            && r[jobId] == NewEntry(jobId, udfs, sqls, None, stopTime)
  {
  }
}

=== FILE: yarn_job.dfy ===
/** AbstractYarnJob: the state a YARN-backed job keeps about its remote
    applications, and the three operations that use it: log processing,
    completion polling and cancellation. The YARN REST client is a function from
    application id to reply; the DAO is a store holding the two records the job
    may write; the file system is a map from path to content. */
module YarnJob {
  import opened Base
  import opened JobProps
  import opened IdMatching
  import opened HandleLinks
  import opened KillScript

  /** The mutable part of an AbstractYarnJob. `complete` and `cancel` are the
      flags it shares with Job. */
  datatype YarnJob = YarnJob(
    props: Props,
    isLongJob: bool,
    appLinks: seq<string>,
    jobLinks: seq<string>,
    complete: bool,
    cancel: bool
  )

  /** The two link lists are duplicate-free. */
  predicate Valid(job: YarnJob) {
    NoDup(job.appLinks) && NoDup(job.jobLinks)
  }

  // ---------------------------------------------------------------------------
  // Persistence of the link lists

  /** The link fields of an ExecutionNode or a StreamingResult. */
  datatype LinkRecord = LinkRecord(appLinkList: seq<string>, jobLinkList: seq<string>)

  /** What the DAO returns for this job: the short-job ExecutionNode and the
      long-job StreamingResult, either of which may be missing. */
  datatype Store = Store(executionNode: Option<LinkRecord>, streamingResult: Option<LinkRecord>)

  /** The link fields after `logProcess` sets them. As the source is written,
      the job-link field receives the application list, not the job list. */
  function SetLinks(rec: LinkRecord, capturedApp: bool, capturedJob: bool, appLinks: seq<string>): LinkRecord {
    var withApps := if capturedApp then rec.(appLinkList := appLinks) else rec;
    if capturedJob then withApps.(jobLinkList := appLinks) else withApps
  }

  /** The write-back step of `logProcess`: only when something new was
      captured, only the record that `isLongJob` selects, and only when the DAO
      found that record. `wrote` tells whether an update reached the DAO. */
  datatype PersistResult = PersistResult(store: Store, wrote: bool)

  function Persist(store: Store, isLongJob: bool, capturedApp: bool, capturedJob: bool,
                   appLinks: seq<string>): (r: PersistResult)
    ensures r.wrote <==> (capturedApp || capturedJob)
                         && (if isLongJob then store.streamingResult.Some? else store.executionNode.Some?)
    ensures !r.wrote ==> r.store == store
    ensures isLongJob ==> r.store.executionNode == store.executionNode
    ensures !isLongJob ==> r.store.streamingResult == store.streamingResult
  {
    if !(capturedApp || capturedJob) then PersistResult(store, false)
    else if !isLongJob then
      match store.executionNode
      case None => PersistResult(store, false)
      case Some(node) =>
        PersistResult(store.(executionNode := Some(SetLinks(node, capturedApp, capturedJob, appLinks))), true)
    else
      match store.streamingResult
      case None => PersistResult(store, false)
      case Some(res) =>
        PersistResult(store.(streamingResult := Some(SetLinks(res, capturedApp, capturedJob, appLinks))), true)
  }

  /** The record written holds the job's full application list in each field
      that gained something, and keeps the old value in each field that did not. */
  lemma PersistWritesFullLists(store: Store, isLongJob: bool, capturedApp: bool, capturedJob: bool,
                               appLinks: seq<string>)
    requires Persist(store, isLongJob, capturedApp, capturedJob, appLinks).wrote
    ensures var before := if isLongJob then store.streamingResult.value else store.executionNode.value;
            var r := Persist(store, isLongJob, capturedApp, capturedJob, appLinks).store;
            var rec := if isLongJob then r.streamingResult.value else r.executionNode.value;
            && rec.appLinkList == (if capturedApp then appLinks else before.appLinkList)
            && rec.jobLinkList == (if capturedJob then appLinks else before.jobLinkList)
  {
  }

  /** Writing the same lists again changes nothing: the write is idempotent. */
  lemma PersistIdempotent(store: Store, isLongJob: bool, capturedApp: bool, capturedJob: bool,
                          appLinks: seq<string>)
    ensures var once := Persist(store, isLongJob, capturedApp, capturedJob, appLinks).store;
            Persist(once, isLongJob, capturedApp, capturedJob, appLinks).store == once
  {
  }

  // ---------------------------------------------------------------------------
  // Cancellation

  /** The result of `cancel(cancelApplication)`: the job with its cancel flag
      set, the file system, and how the kill went when one was attempted. */
  datatype CancelResult = CancelResult(job: YarnJob, files: map<string, string>, kill: Option<KillOutcome>)

  function Cancel(job: YarnJob, cancelApplication: bool, files: map<string, string>,
                  writeFails: bool): (r: CancelResult)
    ensures r.job == job.(cancel := true)
    ensures !cancelApplication ==> r.files == files && r.kill == None
    ensures cancelApplication && |job.appLinks| == 0 ==> r.files == files && r.kill == Some(NoApplication)
    ensures cancelApplication && |job.appLinks| > 0 ==>
              r.kill.Some? && r.kill.value != NoApplication
              && r.kill.value.path
                 == KillScriptPath(job.props.workDir, job.props.jobAppId, job.appLinks[|job.appLinks| - 1])
  {
    var job' := job.(cancel := true);
    if cancelApplication then
      var k := CancelApplication(job.appLinks, job.props, files, writeFails);
      CancelResult(job', k.files, Some(k.outcome))
    else CancelResult(job', files, None)
  }

  // ---------------------------------------------------------------------------
  // Log processing

  /** Everything `logProcess` changes, and the kill it attempted when the job
      was already cancelled (with the command it issued, if any). */
  datatype LogResult = LogResult(job: YarnJob, store: Store, files: map<string, string>, wroteStore: bool,
                                 kill: Option<KillOutcome>)

  /** `logProcess(logs)`: mine the batch for ids, write the lists back when
      something new appeared, then, if the job was already cancelled, cancel
      it again with the kill (any exception from that is swallowed). */
  method LogProcess(job: YarnJob, lines: seq<string>, store: Store, files: map<string, string>,
                    writeFails: bool)
    returns (r: LogResult)
    requires Valid(job)
    ensures Valid(r.job)
    ensures r.job == job.(appLinks := r.job.appLinks, jobLinks := r.job.jobLinks)
    ensures r.job.appLinks == AddNew(job.appLinks, FoundIds(lines, ApplicationPrefix))
    ensures r.job.jobLinks == AddNew(job.jobLinks, FoundIds(lines, JobPrefix))
    ensures var capturedApp := |r.job.appLinks| > |job.appLinks|;
            var capturedJob := |r.job.jobLinks| > |job.jobLinks|;
            var p := Persist(store, job.isLongJob, capturedApp, capturedJob, r.job.appLinks);
            r.store == p.store && r.wroteStore == p.wrote
    ensures !job.cancel ==> r.files == files && r.kill == None
    ensures job.cancel ==>
              var k := CancelApplication(r.job.appLinks, job.props, files, writeFails);
              r.files == k.files && r.kill == Some(k.outcome)
    ensures job.cancel && |job.appLinks| > 0 ==> r.kill.Some? && r.kill.value != NoApplication
    ensures job.cancel && |r.job.appLinks| > 0 ==>
              var path := KillScriptPath(job.props.workDir, job.props.jobAppId,
                                         r.job.appLinks[|r.job.appLinks| - 1]);
              path in files ==> r.files == files && r.kill == Some(Issued(path, RunCommand(path, job.props.proxyUser)))
  {
    var apps, jobs, capturedApp, capturedJob := ScanLog(job.appLinks, job.jobLinks, lines);
    AddNewSpec(job.appLinks, FoundIds(lines, ApplicationPrefix));
    AddNewSpec(job.jobLinks, FoundIds(lines, JobPrefix));
    var job' := job.(appLinks := apps, jobLinks := jobs);
    var p := Persist(store, job.isLongJob, capturedApp, capturedJob, apps);
    var files' := files;
    var kill: Option<KillOutcome> := None;
    if job.cancel {
      var c := Cancel(job', true, files, writeFails);
      files' := c.files;
      job' := c.job;
      kill := c.kill;
    }
    r := LogResult(job', p.store, files', p.wrote, kill);
  }

  // ---------------------------------------------------------------------------
  // Completion polling

  /** The FlowStatus values YarnRestClient can report, grouped the way
      `isCompleted` looks at them. */
  datatype FlowStatus =
    | Running                   // FlowStatus.RUNNING
    | Finished(name: string)    // a status whose typeIsFinished() holds
    | Pending(name: string)     // any other status

  /** What `getApplicationStatus(appId)` does: return null, return a status,
      or throw. */
  datatype StatusReply = NotFound | Status(status: FlowStatus) | QueryFailed

  /** One `isCompleted()` poll: the job with its new `complete` flag (which is
      also the answer) and the application ids it asked YARN about. */
  datatype Poll = Poll(job: YarnJob, queried: seq<string>)

  function IsCompleted(job: YarnJob, yarn: string -> StatusReply): (r: Poll)
    ensures r.job == job.(complete := r.job.complete)
    ensures |job.appLinks| == 0 ==> r.queried == [] && r.job.complete == job.complete
    ensures |job.appLinks| > 0 ==> r.queried == [job.appLinks[|job.appLinks| - 1]]
    ensures |job.appLinks| > 0 ==>
              match yarn(job.appLinks[|job.appLinks| - 1])
              case NotFound => !r.job.complete
              case QueryFailed => r.job.complete
              case Status(Running) => r.job.complete
              case Status(Finished(_)) => r.job.complete
              case Status(Pending(_)) => r.job.complete == job.complete
  {
    if |job.appLinks| == 0 then Poll(job, [])
    else
      var appId := job.appLinks[|job.appLinks| - 1];
      var complete :=
        match yarn(appId)
        case NotFound => false
        case QueryFailed => true
        case Status(s) => if s.Finished? || s.Running? then true else job.complete;
      Poll(job.(complete := complete), [appId])
  }

  /** Only the most recent application counts: two YARN clients that agree on
      it give the same verdict, whatever they say about earlier ids. */
  lemma IsCompletedOnlyLast(job: YarnJob, yarn1: string -> StatusReply, yarn2: string -> StatusReply)
    requires |job.appLinks| > 0
    requires yarn1(job.appLinks[|job.appLinks| - 1]) == yarn2(job.appLinks[|job.appLinks| - 1])
    ensures IsCompleted(job, yarn1) == IsCompleted(job, yarn2)
  {
  }

  /** Polling again with the same answer gives the same verdict. */
  lemma IsCompletedIdempotent(job: YarnJob, yarn: string -> StatusReply)
    ensures var once := IsCompleted(job, yarn).job;
            IsCompleted(once, yarn).job == once
  {
  }

  /** Three polling scenarios: with ids [a1, a2, a3], FINISHED and
      RUNNING for a3 both mean complete, no status for a3 means not complete. */
  lemma IsCompletedScenarios(job: YarnJob, a1: string, a2: string, a3: string,
                             yarn: string -> StatusReply)
    requires job.appLinks == [a1, a2, a3]
    ensures yarn(a3) == Status(Finished("FINISHED")) ==> IsCompleted(job, yarn).job.complete
    ensures yarn(a3) == Status(Running) ==> IsCompleted(job, yarn).job.complete
    ensures yarn(a3) == NotFound ==> !IsCompleted(job, yarn).job.complete
  {
  }
}
